=== FILE: README.md ===
# Amazon affiliate scraper — Dafny model

This project models the decision logic of a small Amazon-affiliate scraper
written in Python. It has two scripts:

- `bot.py` reads `produtos.txt`. Each line is a bare ASIN, a product link, a
  search link or a free-text query. The script turns each line into ASINs.
  For each ASIN it fetches the product page for a title and a price. It then
  sends one Telegram message with an affiliate link.
- `search.py` scrapes one search page typed at a prompt. It prints the
  products numbered from one, each with its affiliate link.

The web is the parameter `fetch: string -> Fetch`. A fetch ends in
`Response(status, document)` or `Raised`, which stands for any exception. A
document is already parsed: its search-result blocks in order, plus the text
of the first element with id `productTitle` and of the first `span` with
class `a-price-whole`, `a-price-fraction` and `a-offscreen`. URL encoding (`quote_plus`) is the
parameter `encode`. The configuration is a record of optional strings. The
item file is a sequence of lines, or `None` when it does not exist. The
Telegram send is not modelled; `Bot.Main` returns the message texts in the
order they would be sent.

Modules: `Wrappers` (the `Option` type), `Text` (strip, substring, prefix),
`Asin` (the ASIN regular expression), `Page` (fetch outcomes, documents,
blocks), `Affiliate` (links and their parser), `Bot` (`bot.py`), `Search`
(`search.py`), and `Contrast` (how the two scripts differ on the same input).

Neither script parses links. `Affiliate.ParseAffiliateLink` is an inverse of
the link builder, written so that the round trip of the affiliate link can be
stated and proved. Neither script has a counterpart of it.

Three points of the code are easy to misread:

- The driver does not use the listing scraper. It uses `search_amazon`, which
  slices the first ten blocks and then drops those without an ASIN.
  `Contrast.ShortfallExample` shows the two give different results.
- The driver aborts when any one of the three configuration values is unset
  or empty, not only when all three are missing.
- On a product page, a whole part without a fraction makes the price fall
  back to the offscreen text. In a listing, the same case gives `"00"` as the
  fraction.

## Model

| member | source | states |
|---|---|---|
| `Text.Strip` | bot.py:133 | The stripped line is no longer than the line and has no whitespace at either end. `Text.StripTrims`, `Text.StripIdempotent` and `Text.StripEmptyIff` give the rest of its specification. |
| `Text.StripTrims` | bot.py:133 | `strip` removes whitespace from the two ends only. The result is a middle slice of the input, with whitespace before and after it, and no whitespace at either of its own ends. |
| `Text.StripIdempotent` | bot.py:133 | Stripping an already-stripped line changes nothing. |
| `Text.StripEmptyIff` | bot.py:133 | A line strips to the empty string exactly when every character of it is whitespace. |
| `Text.Contains` | bot.py:28 | The substring test is true exactly when the pattern occurs at some index of the text. |
| `Asin.FirstAsinFrom` | bot.py:21 | The search returns the smallest start index at or after `from` where ten characters of `[A-Z0-9]` follow. It returns none exactly when there is no such index. |
| `Asin.ExtractAsin` | bot.py:19-24 | Returns none exactly when no index starts a window of ten `[A-Z0-9]` characters. Otherwise it returns ten such characters that occur verbatim in the input. |
| `Asin.ExtractAsinLeftmost` | bot.py:21-23 | When the leftmost matching window starts at `i`, the result is exactly `s[i..i+10]`. |
| `Asin.ExtractAsinOfAsin` | bot.py:21-23 | A string that is itself ten `[A-Z0-9]` characters extracts to itself. |
| `Asin.ExtractAsinAppend` | bot.py:21 | Text appended after a string that already holds a match does not change the match. |
| `Asin.NoAsinWithoutAsinChars` | bot.py:21-24 | A string with no capital letter and no digit extracts to none. |
| `Page.FoundText` | bot.py:69-70 | A found element gives its stripped text, even when that text is empty, and a missing one gives the fallback. This is the product-page title (`Produto Amazon`) and also the listing title of search.py:39-40 (`Produto sem título`). |
| `Page.AsinBlocks` | search.py:34-36 | Filtering keeps only blocks with a non-empty `data-asin`, all taken from the input, and never grows the list. |
| `Page.AsinBlocksKeepsAll` | bot.py:48-50 | Every block with a non-empty `data-asin` survives the filter. |
| `Page.AsinBlocksAppend` | bot.py:47-50 | Filtering a concatenation gives the concatenation of the filtered parts, so order is preserved. |
| `Page.AsinsOf` | bot.py:48-50 | The ASIN list has one non-empty entry per block, equal to that block's `data-asin`, in order. |
| `Affiliate.ProductUrl` | bot.py:61 | The product page URL is the `/dp/` prefix followed by exactly the ASIN. |
| `Affiliate.AffiliateLink` | bot.py:115 | The link is the product page URL followed by `?tag=` and the tag. |
| `Affiliate.ParseAffiliateLinkRoundTrip` | bot.py:115 | Parsing the link of an ASIN without `?` gives back that ASIN and the tag. |
| `Affiliate.ParseAffiliateLinkSound` | search.py:88 | Any link the parser accepts is exactly the affiliate link of the ASIN and tag it returns. |
| `Bot.IsSearchUrl` | bot.py:26-28 | True exactly when `amazon.com.br/s?` occurs at some index of the text. |
| `Bot.SearchUrl` | bot.py:33-38 | A search link is fetched as it is. Anything else is fetched as the search base followed by the encoded query. |
| `Bot.SearchUrlIsSearch` | bot.py:33-38 | The URL fetched is always a search link, so building it a second time changes nothing. |
| `Bot.FirstResults` | bot.py:47 | The slice is the whole page when the page has ten blocks or fewer, and exactly its first ten blocks otherwise. |
| `Bot.SearchAsins` | bot.py:44-51 | The list has one entry per block among the first ten that has an ASIN, so repeated ASINs are kept. There are at most ten entries, none of them empty. With `Bot.SearchAsinsFindsPresent` and `Contrast.SearchAsinsPrefixOfListing` this fixes the list. |
| `Bot.SearchAsinsFindsPresent` | bot.py:47-51 | Each of the first ten blocks that has an ASIN contributes that ASIN to the list, whatever the other blocks hold. |
| `Bot.SearchAsinsIgnoresLaterBlocks` | bot.py:47 | Blocks after the tenth never affect the list. |
| `Bot.SearchAsinsAllPresent` | bot.py:47-51 | When every one of the first ten blocks has an ASIN, the list is exactly their ASINs, in document order. |
| `Bot.SearchAmazon` | bot.py:30-57 | A status other than 200, or an exception, gives the empty list. A 200 response gives the ASIN list of the page's blocks, at most ten long. |
| `Bot.DetailPrice` | bot.py:73-83 | With both price parts present, the price is `R$ ` followed by the stripped whole and the stripped fraction. Otherwise it is the stripped offscreen text when that element is found, and the fallback `Verificar no site` when it is not. |
| `Bot.DetailPriceNeedsBothParts` | bot.py:73-83 | A whole or fraction part alone is ignored. The price is then the one for a page with neither part, and the fallback when there is also no offscreen text. |
| `Bot.DetailPriceFromParts` | bot.py:77-78 | With both parts present, the price is `R$ ` followed by the stripped whole and the stripped fraction, with no separator, whatever the offscreen text. |
| `Bot.GetAmazonDetails` | bot.py:59-91 | A status other than 200, or an exception, gives the fixed pair (`Produto Amazon`, `Verificar no site`). On 200, the title is the stripped `productTitle`, or `Produto Amazon` when there is none. The price is the product-page price of the page's whole, fraction and offscreen parts. |
| `Bot.Compose` | bot.py:118-122 | The message is exactly the cart emoji and `<b>`, the title, the closing `</b>` and the price label, the price, the link label, and the link, in that order and with nothing else. Its length is the sum of the six parts, and each part occurs at its offset. |
| `Bot.LinkIsLastLine` | bot.py:118-122 | When the link has no line feed, it is the last line of the message, so it can be read back from the message. |
| `Bot.ProcessAsin` | bot.py:110-124 | The message for an ASIN is composed from the title and price of its product page and its affiliate link. |
| `Bot.ProcessAsinLayout` | bot.py:110-124 | In the message for an ASIN, the page's title and price stand at their offsets, and the affiliate link ends the message. |
| `Bot.Items` | bot.py:133 | Items are stripped, non-empty, and never more numerous than the lines. |
| `Bot.ItemsAppend` | bot.py:133 | The items of a file are the items of its parts, in order. |
| `Bot.ItemsOfLine` | bot.py:133 | A line yields no item exactly when it is all whitespace. Otherwise it yields its stripped text. |
| `Bot.Classify` | bot.py:151-177 | A line is a comment exactly when it starts with `#`. It is searched exactly when it is not a comment and is a search link or holds no ASIN. Otherwise it is the ASIN extracted from it. |
| `Bot.BareAsinIsDirect` | bot.py:157-177 | A line that is nothing but an ASIN is processed directly as that ASIN. |
| `Bot.LowercaseQueryIsSearched` | bot.py:157-162 | A non-comment line with no capital letter and no digit is searched. |
| `Bot.ClassifyPrecedence` | bot.py:160 | A search link is searched even when it holds an ASIN-shaped run. Any other line that holds one is taken as that ASIN. |
| `Bot.LineAsins` | bot.py:149-178 | A comment makes no call. A direct line makes exactly one call, on its ASIN. A searched line makes one call per ASIN the search returns, which is at most ten. |
| `Bot.RunAsins` | bot.py:149-178 | A file of n items makes at most 10·n calls. |
| `Bot.RunAsinsOne` | bot.py:149-178 | A file of one item makes exactly the calls of that item. With `Bot.RunAsinsAppend` this fixes the calls of every file: those of its items, in file order. |
| `Bot.RunAsinsAppend` | bot.py:149 | Items are handled one after another: the calls for a file are the calls for its first part followed by those for the rest. |
| `Bot.CommentsMakeNoCalls` | bot.py:151-152 | Inserting a `#` line anywhere leaves the calls unchanged. |
| `Bot.Messages` | bot.py:169-178 | One message per processed ASIN, in order, each the `process_asin` message of that ASIN. |
| `Bot.Configured` | bot.py:127 | The run is refused exactly when one of the token, the chat id and the tag is unset or empty. |
| `Bot.Main` | bot.py:126-178 | Missing configuration ends the run exactly when a value is unset or empty, before the file is read. A missing file creates the three example lines. A file with no items ends the run. Otherwise the messages are, in order, the `process_asin` message of each ASIN the items resolve to, with the configured tag. |
| `Search.ListingPrice` | search.py:43-54 | With a whole part, the price is `R$ ` followed by the stripped whole and then the stripped fraction, or `00` when there is no fraction. Without a whole part it is the stripped offscreen text, or the fallback `Preço indisponível`. |
| `Search.ListingPriceFromWhole` | search.py:47-50 | With a whole part, the price is `R$ ` followed by the stripped whole and the stripped fraction, or `00` when the fraction is absent. The offscreen text is never consulted. |
| `Search.ListingPriceWithoutWhole` | search.py:43-54 | Without a whole part, a fraction is ignored. The price is the stripped offscreen text, else `Preço indisponível`. |
| `Search.ToProduct` | search.py:38-60 | The record keeps the block's ASIN. Its title is the stripped `h2` text, or `Produto sem título`. Its price follows the listing chain. |
| `Search.ToProducts` | search.py:30-60 | Each kept block gives one record, in block order: the k-th record is the k-th block's record and carries that block's ASIN. |
| `Search.Take` | search.py:31-32 | Taking n elements gives a prefix whose length is the smaller of the cap and the list length. The cap is never negative. |
| `Search.Collect` | search.py:29-36 | The scan never returns more records than the cap or the number of blocks. A cap of zero or less returns nothing. Every record has a non-empty ASIN. |
| `Search.CollectIsCappedFilter` | search.py:29-61 | The scan returns exactly the records of the first `max_results` blocks that have an ASIN, in document order. Blocks without one are skipped without ending the scan. |
| `Search.CollectCount` | search.py:30-36 | The number of records is the smaller of `max_results` and the number of blocks with an ASIN. |
| `Search.GetSearchResults` | search.py:10-65 | A status other than 200, or an exception, gives the empty list. A 200 response gives the capped, filtered records, at most `max_results`, all with a non-empty ASIN. |
| `Search.Entries` | search.py:87-91 | Entry k is numbered `first + k` and carries product k's title, price and affiliate link. |
| `Search.EntryLinksParseBack` | search.py:87-91 | Entry k is numbered k+1. When product k's ASIN holds no `?`, its link parses back to that ASIN and the tag. |
| `Search.Main` | search.py:67-92 | A missing tag and an empty typed URL each end the run. An empty result ends it. Otherwise the list has one to ten entries, numbered from one. Each entry carries its product's title, price and affiliate link. |
| `Contrast.PricesAgreeWithBothParts` | bot.py:77-78 | With both price parts present, the product-page price and the listing price are equal. |
| `Contrast.PricesDifferWithoutFraction` | search.py:47-50 | With a whole part but no fraction, the listing gives `R$ <whole>00`. The product page gives the offscreen text, else its fallback. |
| `Contrast.PricesAgreeWithoutWhole` | search.py:51-54 | Without a whole part, both chains give the offscreen text. Only their fallback literals differ. |
| `Contrast.SearchAsinsPrefixOfListing` | bot.py:47-50 | The driver's search list is always a prefix of the ASINs the listing scraper returns for the same page with a cap of ten. |
| `Contrast.ShortfallExample` | bot.py:47-50 | On a page whose first ten blocks lack an ASIN and whose eleventh has one, the driver finds nothing while the listing finds that product. |
| `Contrast.DirectLinkParsesBack` | bot.py:115 | For a line processed directly, the affiliate link parses back to the same ASIN and tag. |

## Left out

- HTTP requests and the Telegram POST: network I/O. `fetch` is a parameter. The send is represented by the message text it would carry. The token and chat id only gate the run.
- HTML parsing (BeautifulSoup `find`/`find_all`): a foreign library. Documents arrive already reduced to block records and first-match texts. An element found with empty text counts as present, because a parsed tag is truthy in Python.
- `quote_plus`: a library call, kept as the parameter `encode`.
- `load_dotenv`/`os.getenv`: environment I/O. The configuration is passed in as a record.
- Reading and creating `produtos.txt`: file I/O. The file is a sequence of lines, and creation is reported as the three lines written.
- `input()` in `search.py`: the typed text is a parameter.
- `time.sleep(2)` and all `print` logging, including the printed `Produto i/10` counter: side effects with nothing to state.
- `Text.Strip`: the whitespace set is the fixed list of characters for which Python's `str.isspace()` holds. Changes to that set in other Unicode versions are not modelled.
- `fetch` is one fixed function from URL to outcome for the whole run: the same URL always gives the same page. `Bot.Main` therefore computes every search's ASINs (`Bot.RunAsins`) before it builds any message (`Bot.Messages`). `bot.py` interleaves these requests, at bot.py:162-171. Under a fixed `fetch` the order of requests does not change the messages, and the model says nothing about a site whose pages change during a run.
- `Page.Fetch`: exceptions are one outcome, `Raised`. The model does not tell where an exception arose, because both scripts handle all exceptions the same way.

=== FILE: affiliate.dfy ===
/** The affiliate link both scripts build for a product:
    `https://www.amazon.com.br/dp/<asin>?tag=<tag>`, and the parser that takes
    one apart again. */
module Affiliate {
  import opened Wrappers
  import opened Text

  /** The product-page prefix; followed by an ASIN it is also the page
      `get_amazon_details` fetches. */
  const ProductBase := "https://www.amazon.com.br/dp/"
  const TagParameter := "?tag="

  /** The product page of `asin`. */
  function ProductUrl(asin: string): (r: string)
    ensures StartsWith(r, ProductBase) && r[|ProductBase|..] == asin
  {
    ProductBase + asin
  }

  /** The affiliate link for `asin` carrying the affiliate `tag`. */
  function AffiliateLink(asin: string, tag: string): (r: string)
    ensures StartsWith(r, ProductUrl(asin))
    ensures r[|ProductBase| + |asin|..] == TagParameter + tag
  {
    ProductUrl(asin) + TagParameter + tag
  }

  /** The index of the first `c` in `s`, if any. */
  function IndexOf(s: string, c: char): (r: Option<nat>)
    ensures r.Some? ==> r.value < |s| && s[r.value] == c && c !in s[..r.value]
    ensures r.None? <==> c !in s
  {
    if s == [] then None
    else if s[0] == c then Some(0)
    else match IndexOf(s[1..], c)
      case None => None
      case Some(i) =>
        assert s[..i + 1] == [s[0]] + s[1..][..i];
        Some(i + 1)
  }

  /** Reads the ASIN and the tag back out of an affiliate link: the ASIN runs
      from the product prefix to the first `?`, and the tag is whatever follows
      `?tag=`. */
  function ParseAffiliateLink(link: string): (r: Option<(string, string)>)
    ensures r.Some? ==> '?' !in r.value.0
  {
    if !StartsWith(link, ProductBase) then None
    else
      var rest := link[|ProductBase|..];
      match IndexOf(rest, '?')
      case None => None
      case Some(q) =>
        if StartsWith(rest[q..], TagParameter)
        then Some((rest[..q], rest[q + |TagParameter|..]))
        else None
  }

  /** Parsing recovers the ASIN and the tag from any link built from an ASIN
      without a `?` in it. */
  lemma ParseAffiliateLinkRoundTrip(asin: string, tag: string)
    requires '?' !in asin
    ensures ParseAffiliateLink(AffiliateLink(asin, tag)) == Some((asin, tag))
  {
    var link := AffiliateLink(asin, tag);
    var rest := link[|ProductBase|..];
    assert rest == asin + TagParameter + tag;
    assert rest[|asin|] == '?';
    assert rest[..|asin|] == asin;
    assert IndexOf(rest, '?') == Some(|asin|);
    assert rest[|asin|..] == TagParameter + tag;
    assert rest[|asin| + |TagParameter|..] == tag;
  }

  /** Every link the parser accepts is the affiliate link of what it returns. */
  lemma ParseAffiliateLinkSound(link: string)
    requires ParseAffiliateLink(link).Some?
    ensures AffiliateLink(ParseAffiliateLink(link).value.0, ParseAffiliateLink(link).value.1) == link
  {
    var rest := link[|ProductBase|..];
    var q := IndexOf(rest, '?').value;
    var asin, tag := rest[..q], rest[q + |TagParameter|..];
    assert ParseAffiliateLink(link) == Some((asin, tag));
    PrefixSplit(link, ProductBase);
    PrefixSplit(rest[q..], TagParameter);
    assert rest[q..][|TagParameter|..] == tag;
    assert rest == asin + rest[q..];
    ConcatAssoc(ProductBase + asin, TagParameter, tag);
    ConcatAssoc(ProductBase, asin, TagParameter + tag);
  }

  /** A string that starts with `p` is `p` followed by the rest. */
  lemma PrefixSplit(s: string, p: string)
    requires StartsWith(s, p)
    ensures s == p + s[|p|..]
  {
  }
}

=== FILE: asin.dfy ===
/** The identifier extractor of `bot.py`: `re.search(r'([A-Z0-9]{10})', s)`
    returns the leftmost window of ten consecutive ASCII capitals or digits. */
module Asin {
  import opened Wrappers
  import opened Text

  const AsinLength := 10

  /** One character of the class `[A-Z0-9]`. */
  predicate IsAsinChar(c: char) {
    ('A' <= c <= 'Z') || ('0' <= c <= '9')
  }

  /** A whole string drawn from `[A-Z0-9]`. */
  predicate AllAsinChars(s: string) {
    forall k :: 0 <= k < |s| ==> IsAsinChar(s[k])
  }

  /** The pattern matches at index `i`: the ten characters from `i` on are in
      the class. */
  predicate AsinAt(s: string, i: int) {
    0 <= i && i + AsinLength <= |s| && AllAsinChars(s[i..i + AsinLength])
  }

  /** The leftmost matching index at or after `from`, as a regular-expression
      search tries the start positions left to right. */
  function FirstAsinFrom(s: string, from: nat): (r: Option<nat>)
    decreases |s| - from
    ensures r.Some? ==> from <= r.value && AsinAt(s, r.value)
    ensures r.Some? ==> forall j :: from <= j < r.value ==> !AsinAt(s, j)
    ensures r.None? <==> forall j :: from <= j ==> !AsinAt(s, j)
  {
    if from + AsinLength > |s| then None
    else if AsinAt(s, from) then Some(from)
    else FirstAsinFrom(s, from + 1)
  }

  /** `extract_asin`: the leftmost ten-character match, or none. */
  function ExtractAsin(s: string): (r: Option<string>)
    ensures r.None? <==> forall i :: !AsinAt(s, i)
    ensures r.Some? ==> |r.value| == AsinLength && AllAsinChars(r.value)
    ensures r.Some? ==> exists i :: OccursAt(r.value, s, i)
  {
    match FirstAsinFrom(s, 0)
    case None => None
    case Some(i) =>
      assert OccursAt(s[i..i + AsinLength], s, i);
      Some(s[i..i + AsinLength])
  }

  /** The match returned is the one at the smallest index where the pattern
      matches: no earlier window qualifies. */
  lemma ExtractAsinLeftmost(s: string, i: nat)
    requires AsinAt(s, i)
    requires forall j :: 0 <= j < i ==> !AsinAt(s, j)
    ensures ExtractAsin(s) == Some(s[i..i + AsinLength])
  {
    var f := FirstAsinFrom(s, 0);
    assert f.Some? && f.value == i;
  }

  /** A string that is itself an ASIN extracts to itself. */
  lemma ExtractAsinOfAsin(s: string)
    requires |s| == AsinLength && AllAsinChars(s)
    ensures ExtractAsin(s) == Some(s)
  {
    assert s[0..AsinLength] == s;
    ExtractAsinLeftmost(s, 0);
  }

  /** Extraction ignores what follows a match: appending text to a string
      that already holds an ASIN does not change which one is found. */
  lemma ExtractAsinAppend(s: string, t: string)
    requires ExtractAsin(s).Some?
    ensures ExtractAsin(s + t) == ExtractAsin(s)
  {
    var i := FirstAsinFrom(s, 0).value;
    assert (s + t)[i..i + AsinLength] == s[i..i + AsinLength];
    forall j | 0 <= j < i
      ensures !AsinAt(s + t, j)
    {
      assert !AsinAt(s, j);
      assert (s + t)[j..j + AsinLength] == s[j..j + AsinLength];
    }
    ExtractAsinLeftmost(s + t, i);
  }

  /** A string with no capital letter and no digit holds no ASIN. */
  lemma NoAsinWithoutAsinChars(s: string)
    requires forall k :: 0 <= k < |s| ==> !IsAsinChar(s[k])
    ensures ExtractAsin(s) == None
  {
    forall i | 0 <= i && i + AsinLength <= |s|
      ensures !AsinAt(s, i)
    {
      assert !IsAsinChar(s[i..i + AsinLength][0]);
    }
  }
}

=== FILE: bot.dfy ===
/** The batch driver `bot.py`: it reads lines of ASINs, product links, search
    links and free-text queries, resolves each into ASINs, fetches each
    product page for its title and price, and sends one chat message per
    product. The web is the function `fetch` from URL to outcome, URL
    encoding is the function `encode`, and the messages sent are returned
    in the order they are sent. */
module Bot {
  import opened Wrappers
  import opened Text
  import opened Asin
  import opened Page
  import opened Affiliate

  const SearchMarker := "amazon.com.br/s?"
  const SearchBase := "https://www.amazon.com.br/s?k="

  /** How many result blocks a search looks at. */
  const SearchCap := 10

  const FallbackTitle := "Produto Amazon"
  const FallbackPrice := "Verificar no site"

  // ---------------------------------------------------------------------
  // Search
  // ---------------------------------------------------------------------

  /** `is_search_url`: the text contains `amazon.com.br/s?` somewhere. */
  function IsSearchUrl(u: string): (r: bool)
    ensures r <==> exists i :: OccursAt(SearchMarker, u, i)
  {
    Contains(u, SearchMarker)
  }

  /** The URL `search_amazon` fetches: a search link as it is, anything else
      encoded into the query parameter of the search page. */
  function SearchUrl(query: string, encode: string -> string): (r: string)
    ensures IsSearchUrl(query) ==> r == query
    ensures !IsSearchUrl(query) ==> StartsWith(r, SearchBase) && r[|SearchBase|..] == encode(query)
  {
    if IsSearchUrl(query) then query else SearchBase + encode(query)
  }

  /** Whatever the query, the URL fetched is a search link, so building it a
      second time changes nothing. */
  lemma SearchUrlIsSearch(query: string, encode: string -> string)
    ensures IsSearchUrl(SearchUrl(query, encode))
    ensures SearchUrl(SearchUrl(query, encode), encode) == SearchUrl(query, encode)
  {
    var u := SearchUrl(query, encode);
    if !IsSearchUrl(query) {
      assert u[12..12 + |SearchMarker|] == SearchMarker;
      assert OccursAt(SearchMarker, u, 12);
    }
  }

  /** `items[:10]`: the first ten result blocks, or all of them if fewer. */
  function FirstResults(bs: seq<Block>): (r: seq<Block>)
    ensures |r| <= SearchCap && r <= bs
    ensures |bs| <= SearchCap ==> r == bs
    ensures |bs| > SearchCap ==> r == bs[..SearchCap]
  {
    if |bs| <= SearchCap then bs else bs[..SearchCap]
  }

  /** The ASIN list of a successful search: the `data-asin` of those of the
      first ten blocks that have a non-empty one. */
  function SearchAsins(bs: seq<Block>): (r: seq<string>)
    ensures |r| == |AsinBlocks(FirstResults(bs))| <= SearchCap
    ensures forall k :: 0 <= k < |r| ==> r[k] != ""
  {
    AsinsOf(AsinBlocks(FirstResults(bs)))
  }

  /** Blocks after the tenth never reach the list. */
  lemma SearchAsinsIgnoresLaterBlocks(bs: seq<Block>, more: seq<Block>)
    requires |bs| >= SearchCap
    ensures SearchAsins(bs + more) == SearchAsins(bs)
  {
    assert (bs + more)[..SearchCap] == bs[..SearchCap];
    assert FirstResults(bs + more) == FirstResults(bs);
  }

  /** When each of the first ten blocks has an ASIN, the list is exactly their
      ASINs, in document order. */
  lemma {:induction false} SearchAsinsAllPresent(bs: seq<Block>)
    requires forall k :: 0 <= k < |FirstResults(bs)| ==> HasAsin(FirstResults(bs)[k])
    ensures SearchAsins(bs) == AsinsOf(FirstResults(bs))
  {
    AllHaveAsinFiltersToSelf(FirstResults(bs));
  }

  /** Every one of the first ten blocks that has an ASIN contributes it to
      the list, whatever the other blocks hold. */
  lemma SearchAsinsFindsPresent(bs: seq<Block>, k: nat)
    requires k < |FirstResults(bs)| && HasAsin(FirstResults(bs)[k])
    ensures FirstResults(bs)[k].asin.value in SearchAsins(bs)
  {
    var first := FirstResults(bs);
    var kept := AsinBlocks(first);
    AsinBlocksKeepsAll(first, first[k]);
    var j :| 0 <= j < |kept| && kept[j] == first[k];
    assert SearchAsins(bs)[j] == first[k].asin.value;
  }

  lemma {:induction false} AllHaveAsinFiltersToSelf(bs: seq<Block>)
    requires forall k :: 0 <= k < |bs| ==> HasAsin(bs[k])
    ensures AsinBlocks(bs) == bs
  {
    if bs != [] {
      assert HasAsin(bs[0]);
      AllHaveAsinFiltersToSelf(bs[1..]);
    }
  }

  /** `search_amazon`: the ASIN list on a 200 response, the empty list on any
      other status or on an exception. */
  function SearchAmazon(query: string, encode: string -> string, fetch: string -> Fetch): (r: seq<string>)
    ensures !fetch(SearchUrl(query, encode)).IsOk() ==> r == []
    ensures fetch(SearchUrl(query, encode)).IsOk() ==> r == SearchAsins(fetch(SearchUrl(query, encode)).body.blocks)
    ensures |r| <= SearchCap
  {
    var response := fetch(SearchUrl(query, encode));
    if response.IsOk() then SearchAsins(response.body.blocks) else []
  }

  // ---------------------------------------------------------------------
  // Product page
  // ---------------------------------------------------------------------

  /** The price of a product page. The whole and fraction parts are used only
      when both are present, glued together without a separator; otherwise
      the offscreen price; otherwise the fallback. */
  function DetailPrice(whole: Option<string>, fraction: Option<string>, offscreen: Option<string>): (r: string)
    ensures whole.Some? && fraction.Some? ==>
              StartsWith(r, Currency) && r[|Currency|..] == Strip(whole.value) + Strip(fraction.value)
    ensures whole.None? || fraction.None? ==>
              r == (if offscreen.Some? then Strip(offscreen.value) else FallbackPrice)
  {
    if whole.Some? && fraction.Some? then
      var w, f := Strip(whole.value), Strip(fraction.value);
      ConcatAssoc(Currency, w, f);
      DropPrefix(Currency, w + f);
      Currency + w + f
    else if offscreen.Some? then Strip(offscreen.value)
    else FallbackPrice
  }

  /** A lone whole or fraction part is ignored: the price is then what a page
      with neither part would give. */
  lemma DetailPriceNeedsBothParts(whole: Option<string>, fraction: Option<string>, offscreen: Option<string>)
    requires whole.None? || fraction.None?
    ensures DetailPrice(whole, fraction, offscreen) == DetailPrice(None, None, offscreen)
    ensures offscreen.None? ==> DetailPrice(whole, fraction, offscreen) == FallbackPrice
  {
  }

  /** With both parts present the offscreen price is never consulted, and the
      price is the currency followed by the two stripped parts, with no
      separator between them. */
  lemma DetailPriceFromParts(whole: string, fraction: string, offscreen: Option<string>)
    ensures DetailPrice(Some(whole), Some(fraction), offscreen) == Currency + Strip(whole) + Strip(fraction)
  {
  }

  /** `get_amazon_details`: title and price of the product page of `asin`,
      the fixed fallback pair on a status other than 200 or an exception. */
  function GetAmazonDetails(asin: string, fetch: string -> Fetch): (r: (string, string))
    ensures !fetch(ProductUrl(asin)).IsOk() ==> r == (FallbackTitle, FallbackPrice)
    ensures fetch(ProductUrl(asin)).IsOk() && fetch(ProductUrl(asin)).body.productTitle.None? ==> r.0 == FallbackTitle
    ensures fetch(ProductUrl(asin)).IsOk() && fetch(ProductUrl(asin)).body.productTitle.Some?
            ==> r.0 == Strip(fetch(ProductUrl(asin)).body.productTitle.value)
    ensures fetch(ProductUrl(asin)).IsOk() ==>
              var page := fetch(ProductUrl(asin)).body;
              r.1 == DetailPrice(page.priceWhole, page.priceFraction, page.offscreen)
  {
    var response := fetch(ProductUrl(asin));
    if response.IsOk() then
      var page := response.body;
      (FoundText(page.productTitle, FallbackTitle), DetailPrice(page.priceWhole, page.priceFraction, page.offscreen))
    else (FallbackTitle, FallbackPrice)
  }

  // ---------------------------------------------------------------------
  // Message
  // ---------------------------------------------------------------------

  const TitleLead := "\U{1F6D2} <b>"
  const PriceLead := "</b>\n\n\U{1F4B0} Pre\U{E7}o: "
  const LinkLead := "\n\n\U{1F517} Compre pelo link de afiliado:\n"

  /** The chat message: the title in bold, then the price, then the link on
      the last line. */
  function Compose(title: string, price: string, link: string): (m: string)
    ensures |m| == |TitleLead| + |title| + |PriceLead| + |price| + |LinkLead| + |link|
    ensures OccursAt(TitleLead, m, 0)
    ensures OccursAt(title, m, |TitleLead|)
    ensures OccursAt(PriceLead, m, |TitleLead| + |title|)
    ensures OccursAt(price, m, |TitleLead| + |title| + |PriceLead|)
    ensures OccursAt(LinkLead, m, |m| - |link| - |LinkLead|)
    ensures OccursAt(link, m, |m| - |link|)
  {
    var m := TitleLead + title + PriceLead + price + LinkLead + link;
    var a := |TitleLead| + |title|;
    var b := a + |PriceLead| + |price|;
    assert m[..|TitleLead|] == TitleLead;
    assert m[|TitleLead|..a] == title;
    assert m[a..a + |PriceLead|] == PriceLead;
    assert m[a + |PriceLead|..b] == price;
    assert m[b..b + |LinkLead|] == LinkLead;
    assert m[|m| - |link|..] == link;
    m
  }

  /** The text after the last line feed. */
  function LastLine(s: string): (r: string)
    ensures '\n' !in r
  {
    if s == [] then []
    else if s[|s| - 1] == '\n' then []
    else LastLine(s[..|s| - 1]) + [s[|s| - 1]]
  }

  lemma {:induction false} LastLineAfterBreak(s: string, t: string)
    requires '\n' !in t
    ensures LastLine(s + "\n" + t) == t
  {
    if t != [] {
      var u := s + "\n" + t;
      assert u[..|u| - 1] == s + "\n" + t[..|t| - 1];
      assert t[|t| - 1] in t;
      LastLineAfterBreak(s, t[..|t| - 1]);
      assert t == t[..|t| - 1] + [t[|t| - 1]];
    } else {
      assert s + "\n" + t == s + "\n";
    }
  }

  /** The link can be read back off the last line of the message whenever it
      holds no line feed, which is the case for every ASIN the extractor
      returns and any tag without a line feed. */
  lemma LinkIsLastLine(title: string, price: string, link: string)
    requires '\n' !in link
    ensures LastLine(Compose(title, price, link)) == link
  {
    var s := TitleLead + title + PriceLead + price + "\n\n\U{1F517} Compre pelo link de afiliado:";
    assert Compose(title, price, link) == s + "\n" + link;
    LastLineAfterBreak(s, link);
  }

  /** `process_asin`: the message sent for one ASIN, built from the details of
      its product page and its affiliate link. */
  function ProcessAsin(asin: string, tag: string, fetch: string -> Fetch): (m: string)
    ensures m == Compose(GetAmazonDetails(asin, fetch).0, GetAmazonDetails(asin, fetch).1, AffiliateLink(asin, tag))
  {
    var details := GetAmazonDetails(asin, fetch);
    Compose(details.0, details.1, AffiliateLink(asin, tag))
  }

  /** The message for an ASIN shows the title and the price of its product
      page at their places and ends with its affiliate link. */
  lemma ProcessAsinLayout(asin: string, tag: string, fetch: string -> Fetch)
    ensures var title := GetAmazonDetails(asin, fetch).0;
            var price := GetAmazonDetails(asin, fetch).1;
            var link := AffiliateLink(asin, tag);
            var m := ProcessAsin(asin, tag, fetch);
            && OccursAt(title, m, |TitleLead|)
            && OccursAt(price, m, |TitleLead| + |title| + |PriceLead|)
            && OccursAt(link, m, |m| - |link|)
  {
    var details := GetAmazonDetails(asin, fetch);
    MessageLayout(ProcessAsin(asin, tag, fetch), details.0, details.1, AffiliateLink(asin, tag));
  }

  /** Where the title, the price and the link stand in a composed message. */
  lemma MessageLayout(m: string, title: string, price: string, link: string)
    requires m == Compose(title, price, link)
    ensures OccursAt(title, m, |TitleLead|)
    ensures OccursAt(price, m, |TitleLead| + |title| + |PriceLead|)
    ensures OccursAt(link, m, |m| - |link|)
  {
  }

  // ---------------------------------------------------------------------
  // Driver
  // ---------------------------------------------------------------------

  /** The three environment variables; `None` when unset. */
  datatype Config = Config(
    telegramToken: Option<string>,
    telegramChatId: Option<string>,
    amazonTag: Option<string>)

  predicate Configured(c: Config)
    ensures !Configured(c) <==>
              || c.telegramToken.None? || c.telegramToken.value == ""
              || c.telegramChatId.None? || c.telegramChatId.value == ""
              || c.amazonTag.None? || c.amazonTag.value == ""
  {
    Truthy(c.telegramToken) && Truthy(c.telegramChatId) && Truthy(c.amazonTag)
  }

  /** A non-empty string with no whitespace at either end. */
  ghost predicate IsItem(x: string) {
    x != [] && Stripped(x)
  }

  /** The lines of `produtos.txt` after stripping, blank ones dropped. */
  function Items(lines: seq<string>): (r: seq<string>)
    ensures |r| <= |lines|
    ensures forall k :: 0 <= k < |r| ==> IsItem(r[k])
  {
    if lines == [] then []
    else
      var t := Strip(lines[0]);
      var rest := Items(lines[1..]);
      if t == [] then rest
      else
        ConsItem(t, rest);
        [t] + rest
  }

  lemma ConsItem(t: string, rest: seq<string>)
    requires t != [] && Stripped(t)
    requires forall k :: 0 <= k < |rest| ==> IsItem(rest[k])
    ensures forall k :: 0 <= k < |[t] + rest| ==> IsItem(([t] + rest)[k])
  {
    forall k | 0 <= k < |[t] + rest|
      ensures IsItem(([t] + rest)[k])
    {
      if k > 0 {
        assert ([t] + rest)[k] == rest[k - 1];
      }
    }
  }

  /** Items of a file are the items of its parts, in order. */
  lemma {:induction false} ItemsAppend(a: seq<string>, b: seq<string>)
    ensures Items(a + b) == Items(a) + Items(b)
  {
    if a != [] {
      assert (a + b)[1..] == a[1..] + b;
      ItemsAppend(a[1..], b);
    } else {
      assert a + b == b;
    }
  }

  /** A single line yields an item exactly when it is not all whitespace, and
      then the item is the stripped line. */
  lemma ItemsOfLine(line: string)
    ensures Items([line]) == [] <==> AllSpace(line)
    ensures !AllSpace(line) ==> Items([line]) == [Strip(line)]
  {
    StripEmptyIff(line);
    assert [line][1..] == [];
  }

  datatype LineKind = Comment | SearchQuery | DirectAsin(asin: string)

  /** How the driver treats an item: `#` lines are skipped; a search link, or
      a line with no ASIN in it, is searched; any other line is the ASIN it
      contains. */
  function Classify(item: string): (k: LineKind)
    ensures k.Comment? <==> StartsWith(item, "#")
    ensures k.SearchQuery? <==> !StartsWith(item, "#") && (IsSearchUrl(item) || ExtractAsin(item).None?)
    ensures k.DirectAsin? ==> ExtractAsin(item) == Some(k.asin) && !IsSearchUrl(item)
  {
    if StartsWith(item, "#") then Comment
    else match ExtractAsin(item)
      case None => SearchQuery
      case Some(a) => if IsSearchUrl(item) then SearchQuery else DirectAsin(a)
  }

  /** A line that is nothing but an ASIN, like `B07XQXZXJC`, is processed
      directly as that ASIN. */
  lemma BareAsinIsDirect(item: string)
    requires |item| == AsinLength && AllAsinChars(item)
    ensures Classify(item) == DirectAsin(item)
  {
    ExtractAsinOfAsin(item);
    assert IsAsinChar(item[0]);
    assert !IsSearchUrl(item) by {
      assert |item| < |SearchMarker|;
    }
  }

  /** A line with no capital letter and no digit, like `smartphone samsung`,
      is searched. */
  lemma LowercaseQueryIsSearched(item: string)
    requires forall k :: 0 <= k < |item| ==> !IsAsinChar(item[k])
    requires !StartsWith(item, "#")
    ensures Classify(item) == SearchQuery
  {
    NoAsinWithoutAsinChars(item);
  }

  /** A search link is searched even when it holds an ASIN-shaped run, and a
      free-text query that happens to hold one is taken as that ASIN. */
  lemma ClassifyPrecedence(item: string)
    requires !StartsWith(item, "#") && ExtractAsin(item).Some?
    ensures IsSearchUrl(item) ==> Classify(item) == SearchQuery
    ensures !IsSearchUrl(item) ==> Classify(item) == DirectAsin(ExtractAsin(item).value)
  {
  }

  /** The ASINs `process_asin` is called on for one item, in call order. */
  function LineAsins(item: string, encode: string -> string, fetch: string -> Fetch): (r: seq<string>)
    ensures Classify(item).Comment? ==> r == []
    ensures Classify(item).DirectAsin? ==> r == [Classify(item).asin]
    ensures Classify(item).SearchQuery? ==> r == SearchAmazon(item, encode, fetch)
    ensures |r| <= SearchCap
  {
    match Classify(item)
    case Comment => []
    case SearchQuery => SearchAmazon(item, encode, fetch)
    case DirectAsin(a) => [a]
  }

  /** The ASINs processed for all items, in call order. */
  function RunAsins(items: seq<string>, encode: string -> string, fetch: string -> Fetch): (r: seq<string>)
    ensures |r| <= SearchCap * |items|
  {
    if items == [] then []
    else LineAsins(items[0], encode, fetch) + RunAsins(items[1..], encode, fetch)
  }

  /** A file of one item makes exactly the calls of that item. */
  lemma RunAsinsOne(item: string, encode: string -> string, fetch: string -> Fetch)
    ensures RunAsins([item], encode, fetch) == LineAsins(item, encode, fetch)
  {
    assert [item][1..] == [];
  }

  /** Processing a file in two parts processes the first part fully, then the
      second. */
  lemma {:induction false} RunAsinsAppend(a: seq<string>, b: seq<string>, encode: string -> string, fetch: string -> Fetch)
    ensures RunAsins(a + b, encode, fetch) == RunAsins(a, encode, fetch) + RunAsins(b, encode, fetch)
  {
    if a != [] {
      var first := LineAsins(a[0], encode, fetch);
      assert (a + b)[0] == a[0] && (a + b)[1..] == a[1..] + b;
      assert RunAsins(a + b, encode, fetch) == first + RunAsins(a[1..] + b, encode, fetch);
      RunAsinsAppend(a[1..], b, encode, fetch);
      ConcatAssoc(first, RunAsins(a[1..], encode, fetch), RunAsins(b, encode, fetch));
    } else {
      assert a + b == b;
    }
  }

  /** Comment lines make no call, wherever they stand. */
  lemma CommentsMakeNoCalls(a: seq<string>, comment: string, b: seq<string>, encode: string -> string, fetch: string -> Fetch)
    requires StartsWith(comment, "#")
    ensures RunAsins(a + [comment] + b, encode, fetch) == RunAsins(a + b, encode, fetch)
  {
    assert Classify(comment).Comment?;
    assert LineAsins(comment, encode, fetch) == [];
    assert RunAsins([comment], encode, fetch) == [] + RunAsins([], encode, fetch) by {
      assert [comment][1..] == [];
    }
    RunAsinsAppend(a + [comment], b, encode, fetch);
    RunAsinsAppend(a, [comment], encode, fetch);
    RunAsinsAppend(a, b, encode, fetch);
  }

  /** The messages sent for a list of ASINs, one per ASIN, in order. */
  function Messages(asins: seq<string>, tag: string, fetch: string -> Fetch): (r: seq<string>)
    ensures |r| == |asins|
    ensures forall k :: 0 <= k < |asins| ==> r[k] == ProcessAsin(asins[k], tag, fetch)
  {
    if asins == [] then [] else [ProcessAsin(asins[0], tag, fetch)] + Messages(asins[1..], tag, fetch)
  }

  const ExampleSearchLink := "https://www.amazon.com.br/s?k=escorredor+de+pratos"
  const ExampleAsin := "B07XQXZXJC"
  const ExampleQuery := "smartphone samsung"

  /** What `produtos.txt` is created with when it does not exist: one search
      link, one ASIN and one free-text query, one per line. */
  const ExampleLines := [ExampleSearchLink + "\n", ExampleAsin + "\n", ExampleQuery + "\n"]

  /** How a run of `main` ends. */
  datatype Outcome =
    | ConfigMissing
    | ExampleCreated(contents: seq<string>)
    | NoItems
    | Processed(messages: seq<string>)

  /** `main`: check the configuration, read the item file (`None` when it
      does not exist), and send the messages of every item in turn. */
  function Main(config: Config, file: Option<seq<string>>, encode: string -> string, fetch: string -> Fetch): (r: Outcome)
    ensures r.ConfigMissing? <==> !Configured(config)
    ensures Configured(config) && file.None? ==> r == ExampleCreated(ExampleLines)
    ensures r.NoItems? <==> Configured(config) && file.Some? && Items(file.value) == []
    ensures r.Processed? ==> |r.messages| == |RunAsins(Items(file.value), encode, fetch)|
    ensures Configured(config) && file.Some? && Items(file.value) != [] ==>
              r == Processed(Messages(RunAsins(Items(file.value), encode, fetch), config.amazonTag.value, fetch))
  {
    if !Configured(config) then ConfigMissing
    else match file
      case None => ExampleCreated(ExampleLines)
      case Some(lines) =>
        var items := Items(lines);
        if items == [] then NoItems
        else Processed(Messages(RunAsins(items, encode, fetch), config.amazonTag.value, fetch))
  }
}

=== FILE: contrast.dfy ===
/** How the two scripts differ on the same page, and worked examples of the
    behaviour both promise. */
module Contrast {
  import opened Wrappers
  import opened Text
  import opened Asin
  import opened Page
  import opened Affiliate
  import Bot
  import Search

  /** With both price parts present the product page and the listing agree. */
  lemma PricesAgreeWithBothParts(whole: string, fraction: string, offscreen: Option<string>)
    ensures Bot.DetailPrice(Some(whole), Some(fraction), offscreen)
         == Search.ListingPrice(Some(whole), Some(fraction), offscreen)
  {
  }

  /** With a whole part but no fraction the chains part ways on purpose: the
      listing assumes `00`, the product page falls back to the offscreen price
      or its own fallback. */
  lemma PricesDifferWithoutFraction(whole: string, offscreen: Option<string>)
    ensures Search.ListingPrice(Some(whole), None, offscreen) == Currency + Strip(whole) + Search.MissingFraction
    ensures Bot.DetailPrice(Some(whole), None, offscreen)
         == if offscreen.Some? then Strip(offscreen.value) else Bot.FallbackPrice
  {
  }

  /** Without a whole part both chains use the offscreen price; only their
      fallback literals differ. */
  lemma PricesAgreeWithoutWhole(fraction: Option<string>, offscreen: Option<string>)
    ensures offscreen.Some? ==> Bot.DetailPrice(None, fraction, offscreen) == Search.ListingPrice(None, fraction, offscreen)
    ensures offscreen.None? ==> Bot.DetailPrice(None, fraction, offscreen) == Bot.FallbackPrice
    ensures offscreen.None? ==> Search.ListingPrice(None, fraction, offscreen) == Search.FallbackPrice
  {
  }

  /** The ASINs of a list of records, in order. */
  function AsinsOfProducts(ps: seq<Search.Product>): (r: seq<string>)
    ensures |r| == |ps|
    ensures forall k :: 0 <= k < |ps| ==> r[k] == ps[k].asin
  {
    if ps == [] then [] else [ps[0].asin] + AsinsOfProducts(ps[1..])
  }

  lemma {:induction false} AsinBlocksOfPrefix(bs: seq<Block>, n: nat)
    requires n <= |bs|
    ensures AsinBlocks(bs[..n]) <= AsinBlocks(bs)
  {
    AsinBlocksAppend(bs[..n], bs[n..]);
    assert bs[..n] + bs[n..] == bs;
  }

  /** The driver's search keeps a prefix of what the lister keeps under the
      same cap of ten: both take ASIN-bearing blocks in document order, but
      the driver looks at the first ten blocks only, while the lister scans on
      until it has ten records. */
  lemma SearchAsinsPrefixOfListing(bs: seq<Block>)
    ensures Bot.SearchAsins(bs) <= AsinsOfProducts(Search.Collect(bs, Bot.SearchCap))
  {
    var first := Bot.FirstResults(bs);
    AsinBlocksOfPrefix(bs, |first|);
    assert first == bs[..|first|];
    var mine := AsinBlocks(first);
    var all := AsinBlocks(bs);
    var taken := Search.Take(all, Bot.SearchCap);
    assert mine <= taken;
    Search.CollectIsCappedFilter(bs, Bot.SearchCap);
    var ps := Search.ToProducts(taken);
    var a := AsinsOf(mine);
    var b := AsinsOfProducts(ps);
    assert forall k :: 0 <= k < |a| ==> a[k] == b[k] by {
      forall k | 0 <= k < |a|
        ensures a[k] == b[k]
      {
        assert mine[k] == taken[k];
        assert mine[k].asin == Some(a[k]);
        assert taken[k].asin == Some(ps[k].asin);
      }
    }
  }

  /** A page whose first ten blocks carry no ASIN and whose eleventh does. */
  function ShortfallPage(): (bs: seq<Block>)
    ensures |bs| == 11
  {
    var empty := Block(None, None, None, None, None);
    seq(10, _ => empty) + [Block(Some("B07XQXZXJC"), None, None, None, None)]
  }

  /** On that page the driver's search finds nothing while the lister finds
      one product: slicing before filtering can return fewer than ten ASINs
      even when later blocks have them. */
  lemma ShortfallExample()
    ensures Bot.SearchAsins(ShortfallPage()) == []
    ensures AsinsOfProducts(Search.Collect(ShortfallPage(), Bot.SearchCap)) == ["B07XQXZXJC"]
  {
    var bs := ShortfallPage();
    var first := bs[..10];
    assert forall k :: 0 <= k < |first| ==> !HasAsin(first[k]);
    NoneHaveAsin(first);
    Search.CollectCount(bs, Bot.SearchCap);
    AsinBlocksAppend(first, bs[10..]);
    assert first + bs[10..] == bs;
    assert HasAsin(bs[10]);
    assert AsinBlocks(bs[10..]) == [bs[10]] by {
      assert bs[10..] == [bs[10]];
      assert [bs[10]][1..] == [];
    }
    Search.CollectIsCappedFilter(bs, Bot.SearchCap);
  }

  lemma {:induction false} NoneHaveAsin(bs: seq<Block>)
    requires forall k :: 0 <= k < |bs| ==> !HasAsin(bs[k])
    ensures AsinBlocks(bs) == []
  {
    if bs != [] {
      assert !HasAsin(bs[0]);
      NoneHaveAsin(bs[1..]);
    }
  }

  /** A line the driver processes directly yields a link from which the same
      ASIN and tag read back. */
  lemma DirectLinkParsesBack(item: string, tag: string)
    requires Bot.Classify(item).DirectAsin?
    ensures ParseAffiliateLink(AffiliateLink(Bot.Classify(item).asin, tag)) == Some((Bot.Classify(item).asin, tag))
  {
    var a := Bot.Classify(item).asin;
    assert AllAsinChars(a);
    forall k | 0 <= k < |a|
      ensures a[k] != '?'
    {
      assert IsAsinChar(a[k]);
    }
    ParseAffiliateLinkRoundTrip(a, tag);
  }
}

=== FILE: page.dfy ===
/** What the scraper sees of the web. The HTTP client and the HTML parser are
    not modelled: a fetch ends either in a response (a status code and the
    already-parsed document) or in an exception, and a document is reduced to
    the text of the elements the scraper looks up in it. */
module Page {
  import opened Wrappers
  import opened Text

  /** The status code both scripts accept. */
  const HttpOk := 200

  /** The currency prefix both scripts put before a price assembled from its
      whole and fraction parts. */
  const Currency := "R$ "

  /** One `div` whose `data-component-type` is `s-search-result`: its
      `data-asin` attribute, the text of its first `h2`, and the text of its
      first `span` with class `a-price-whole`, `a-price-fraction` and
      `a-offscreen`, each `None` when the block has no such element. */
  datatype Block = Block(
    asin: Option<string>,
    h2: Option<string>,
    priceWhole: Option<string>,
    priceFraction: Option<string>,
    offscreen: Option<string>)

  /** A parsed page: its search-result blocks in document order, the text of
      the first element with id `productTitle`, and the text of the first
      `span` with class `a-price-whole`, `a-price-fraction` and
      `a-offscreen`. */
  datatype Document = Document(
    blocks: seq<Block>,
    productTitle: Option<string>,
    priceWhole: Option<string>,
    priceFraction: Option<string>,
    offscreen: Option<string>)

  /** The outcome of `requests.get` followed by parsing: a response, or an
      exception raised anywhere on the way. */
  datatype Fetch = Response(status: int, body: Document) | Raised {
    predicate IsOk() {
      Response? && status == HttpOk
    }
  }

  /** The text taken from an element both scripts look up with a fallback:
      the stripped text of a found element, even when that text is empty
      (a found tag is truthy), or `fallback` when there is none. */
  function FoundText(element: Option<string>, fallback: string): (r: string)
    ensures element.Some? ==> r == Strip(element.value)
    ensures element.None? ==> r == fallback
  {
    match element
    case Some(t) => Strip(t)
    case None => fallback
  }

  /** Python's `if asin:` on `block.get('data-asin')`: the attribute is there
      and is not the empty string. */
  predicate HasAsin(b: Block) {
    b.asin.Some? && b.asin.value != ""
  }

  /** The blocks that carry an ASIN, in document order. */
  function AsinBlocks(bs: seq<Block>): (r: seq<Block>)
    ensures |r| <= |bs|
    ensures forall k :: 0 <= k < |r| ==> HasAsin(r[k]) && r[k] in bs
  {
    if bs == [] then []
    else if HasAsin(bs[0]) then [bs[0]] + AsinBlocks(bs[1..])
    else AsinBlocks(bs[1..])
  }

  /** No block with an ASIN is dropped. */
  lemma {:induction false} AsinBlocksKeepsAll(bs: seq<Block>, b: Block)
    requires b in bs && HasAsin(b)
    ensures b in AsinBlocks(bs)
  {
    if bs[0] != b {
      assert b in bs[1..];
      AsinBlocksKeepsAll(bs[1..], b);
    }
  }

  /** Filtering distributes over concatenation, so filtering a prefix gives a
      prefix of the filtered whole. */
  lemma {:induction false} AsinBlocksAppend(a: seq<Block>, b: seq<Block>)
    ensures AsinBlocks(a + b) == AsinBlocks(a) + AsinBlocks(b)
  {
    if a != [] {
      assert (a + b)[1..] == a[1..] + b;
      AsinBlocksAppend(a[1..], b);
    } else {
      assert a + b == b;
    }
  }

  /** The `data-asin` values of blocks that all carry one, in order. */
  function AsinsOf(bs: seq<Block>): (r: seq<string>)
    requires forall k :: 0 <= k < |bs| ==> HasAsin(bs[k])
    ensures |r| == |bs|
    ensures forall k :: 0 <= k < |bs| ==> bs[k].asin == Some(r[k]) && r[k] != ""
  {
    if bs == [] then []
    else
      assert HasAsin(bs[0]);
      [bs[0].asin.value] + AsinsOf(bs[1..])
  }
}

=== FILE: search.dfy ===
/** The interactive lister `search.py`: it scrapes one search page into at
    most `max_results` product records and prints them numbered, each with
    its affiliate link. */
module Search {
  import opened Wrappers
  import opened Text
  import opened Page
  import opened Affiliate

  const FallbackTitle := "Produto sem t\U{ED}tulo"
  const FallbackPrice := "Pre\U{E7}o indispon\U{ED}vel"

  /** The fraction assumed when a block shows a whole part only. */
  const MissingFraction := "00"

  /** The cap `main` asks for. */
  const DefaultMaxResults := 10

  /** One scraped product: the dictionary `get_amazon_search_results`
      appends for each block it keeps. */
  datatype Product = Product(asin: string, title: string, price: string)

  /** The price of a block. A whole part alone is enough, the fraction
      defaulting to `00`; without a whole part, the offscreen price; else the
      fallback. */
  function ListingPrice(whole: Option<string>, fraction: Option<string>, offscreen: Option<string>): (r: string)
    ensures whole.Some? ==>
              StartsWith(r, Currency)
              && r[|Currency|..] == Strip(whole.value) + (if fraction.Some? then Strip(fraction.value) else MissingFraction)
    ensures whole.None? ==> r == (if offscreen.Some? then Strip(offscreen.value) else FallbackPrice)
  {
    match whole
    case Some(w) =>
      var f := if fraction.Some? then Strip(fraction.value) else MissingFraction;
      ConcatAssoc(Currency, Strip(w), f);
      DropPrefix(Currency, Strip(w) + f);
      Currency + Strip(w) + f
    case None =>
      if offscreen.Some? then Strip(offscreen.value) else FallbackPrice
  }

  /** With a whole part present the offscreen price is never consulted. */
  lemma ListingPriceFromWhole(whole: string, fraction: Option<string>, offscreen: Option<string>)
    ensures fraction.Some? ==> ListingPrice(Some(whole), fraction, offscreen) == Currency + Strip(whole) + Strip(fraction.value)
    ensures fraction.None? ==> ListingPrice(Some(whole), fraction, offscreen) == Currency + Strip(whole) + MissingFraction
  {
  }

  /** Without a whole part a fraction is ignored, and the price is the
      offscreen text or the fallback. */
  lemma ListingPriceWithoutWhole(fraction: Option<string>, offscreen: Option<string>)
    ensures ListingPrice(None, fraction, offscreen) == ListingPrice(None, None, offscreen)
    ensures offscreen.Some? ==> ListingPrice(None, fraction, offscreen) == Strip(offscreen.value)
    ensures offscreen.None? ==> ListingPrice(None, fraction, offscreen) == FallbackPrice
  {
  }

  /** The record of a block that has an ASIN. */
  function ToProduct(b: Block): (p: Product)
    requires HasAsin(b)
    ensures b.asin == Some(p.asin) && p.asin != ""
    ensures b.h2.None? ==> p.title == FallbackTitle
    ensures b.h2.Some? ==> p.title == Strip(b.h2.value)
    ensures p.price == ListingPrice(b.priceWhole, b.priceFraction, b.offscreen)
  {
    Product(b.asin.value, FoundText(b.h2, FallbackTitle), ListingPrice(b.priceWhole, b.priceFraction, b.offscreen))
  }

  /** The records of blocks that all have an ASIN, in order. */
  function ToProducts(bs: seq<Block>): (r: seq<Product>)
    requires forall k :: 0 <= k < |bs| ==> HasAsin(bs[k])
    ensures |r| == |bs|
    ensures forall k :: 0 <= k < |bs| ==> r[k] == ToProduct(bs[k])
    ensures forall k :: 0 <= k < |bs| ==> bs[k].asin == Some(r[k].asin)
  {
    if bs == [] then []
    else
      assert HasAsin(bs[0]);
      [ToProduct(bs[0])] + ToProducts(bs[1..])
  }

  /** A negative or zero cap admits nothing. */
  function Cap(n: int): nat {
    if n < 0 then 0 else n
  }

  /** The first `n` elements of `s`, or all of `s` if it is shorter. */
  function Take<T>(s: seq<T>, n: int): (r: seq<T>)
    ensures |r| == if |s| < Cap(n) then |s| else Cap(n)
    ensures r <= s
  {
    if n <= 0 then [] else if |s| <= n then s else s[..n]
  }

  /** The scan of `get_amazon_search_results` with `slots` records still to
      collect: stop when no slot is left, skip a block without ASIN, record
      any other block. */
  function Collect(bs: seq<Block>, slots: int): (r: seq<Product>)
    ensures |r| <= Cap(slots) && |r| <= |bs|
    ensures forall k :: 0 <= k < |r| ==> r[k].asin != ""
  {
    if bs == [] || slots <= 0 then []
    else if !HasAsin(bs[0]) then Collect(bs[1..], slots)
    else [ToProduct(bs[0])] + Collect(bs[1..], slots - 1)
  }

  /** The scan returns exactly the records of the first `slots` blocks that
      have an ASIN, in document order: blocks without one are passed over
      without ending the scan. */
  lemma {:induction false} CollectIsCappedFilter(bs: seq<Block>, slots: int)
    ensures Collect(bs, slots) == ToProducts(Take(AsinBlocks(bs), slots))
  {
    if bs != [] && slots > 0 {
      CollectIsCappedFilter(bs[1..], if HasAsin(bs[0]) then slots - 1 else slots);
      if HasAsin(bs[0]) {
        var rest := AsinBlocks(bs[1..]);
        assert AsinBlocks(bs) == [bs[0]] + rest;
        assert Take([bs[0]] + rest, slots) == [bs[0]] + Take(rest, slots - 1);
        assert ToProducts([bs[0]] + Take(rest, slots - 1))[1..] == ToProducts(Take(rest, slots - 1));
      }
    }
  }

  /** The number of records is the cap or the number of blocks with an ASIN,
      whichever is smaller. */
  lemma CollectCount(bs: seq<Block>, slots: int)
    ensures |Collect(bs, slots)| == if |AsinBlocks(bs)| < Cap(slots) then |AsinBlocks(bs)| else Cap(slots)
  {
    CollectIsCappedFilter(bs, slots);
  }

  /** `get_amazon_search_results(url, max_results)`: the scan of the page's
      blocks on a 200 response, nothing on any other status or an
      exception. */
  function GetSearchResults(url: string, maxResults: int, fetch: string -> Fetch): (r: seq<Product>)
    ensures !fetch(url).IsOk() ==> r == []
    ensures |r| <= Cap(maxResults)
    ensures forall k :: 0 <= k < |r| ==> r[k].asin != ""
    ensures fetch(url).IsOk() ==> r == ToProducts(Take(AsinBlocks(fetch(url).body.blocks), maxResults))
  {
    var response := fetch(url);
    if response.IsOk() then
      CollectIsCappedFilter(response.body.blocks, maxResults);
      Collect(response.body.blocks, maxResults)
    else []
  }

  /** One printed entry: its number, title, price and affiliate link. */
  datatype Entry = Entry(rank: nat, title: string, price: string, link: string)

  /** The numbered list `main` prints, numbering from `first`. */
  function Entries(products: seq<Product>, tag: string, first: nat): (r: seq<Entry>)
    ensures |r| == |products|
    ensures forall k :: 0 <= k < |r| ==> r[k].rank == first + k
    ensures forall k :: 0 <= k < |r| ==>
              && r[k].title == products[k].title
              && r[k].price == products[k].price
              && r[k].link == AffiliateLink(products[k].asin, tag)
  {
    if products == [] then []
    else
      var p := products[0];
      [Entry(first, p.title, p.price, AffiliateLink(p.asin, tag))] + Entries(products[1..], tag, first + 1)
  }

  /** Every printed link names its own product: reading the link back gives
      the product's ASIN and the tag, whenever the ASIN has no `?`. */
  lemma EntryLinksParseBack(products: seq<Product>, tag: string, k: nat)
    requires k < |products| && '?' !in products[k].asin
    ensures ParseAffiliateLink(Entries(products, tag, 1)[k].link) == Some((products[k].asin, tag))
    ensures Entries(products, tag, 1)[k].rank == k + 1
  {
    ParseAffiliateLinkRoundTrip(products[k].asin, tag);
  }

  /** How a run of `main` ends. */
  datatype Listing =
    | TagMissing
    | InvalidUrl
    | NoProducts
    | Listed(entries: seq<Entry>)

  /** `main`: check the tag, take the typed URL, scrape at most ten products
      and list them numbered from one. */
  function Main(tag: Option<string>, typed: string, fetch: string -> Fetch): (r: Listing)
    ensures r.TagMissing? <==> !Truthy(tag)
    ensures r.InvalidUrl? <==> Truthy(tag) && Strip(typed) == ""
    ensures r.NoProducts? ==> GetSearchResults(Strip(typed), DefaultMaxResults, fetch) == []
    ensures r.Listed? ==> 1 <= |r.entries| <= DefaultMaxResults
    ensures r.Listed? ==>
              var products := GetSearchResults(Strip(typed), DefaultMaxResults, fetch);
              && |r.entries| == |products|
              && forall k :: 0 <= k < |r.entries| ==>
                   && r.entries[k].rank == k + 1
                   && r.entries[k].title == products[k].title
                   && r.entries[k].price == products[k].price
                   && r.entries[k].link == AffiliateLink(products[k].asin, tag.value)
  {
    if !Truthy(tag) then TagMissing
    else
      var url := Strip(typed);
      if url == [] then InvalidUrl
      else
        var products := GetSearchResults(url, DefaultMaxResults, fetch);
        if products == [] then NoProducts
        else Listed(Entries(products, tag.value, 1))
  }
}

=== FILE: text.dfy ===
/** String primitives the scraper leans on: Python's argument-less
    `str.strip()`, the substring test `p in s`, and the prefix test
    `s.startswith(p)`. Strings are sequences of Unicode scalar values. */
module Text {
  import opened Wrappers

  /** The characters Python's `str.isspace()` accepts, which are the ones
      `str.strip()` removes when called without arguments. */
  predicate IsSpace(c: char) {
    || ('\t' <= c <= '\r')            // tab, line feed, vertical tab, form feed, carriage return
    || ('\U{1C}' <= c <= ' ')         // file/group/record/unit separators and space
    || c == '\U{85}' || c == '\U{A0}' || c == '\U{1680}'
    || ('\U{2000}' <= c <= '\U{200A}')
    || c == '\U{2028}' || c == '\U{2029}' || c == '\U{202F}' || c == '\U{205F}'
    || c == '\U{3000}'
  }

  ghost predicate AllSpace(s: string) {
    forall k :: 0 <= k < |s| ==> IsSpace(s[k])
  }

  /** A string with nothing left for `strip` to remove. */
  ghost predicate Stripped(s: string) {
    s == [] || (!IsSpace(s[0]) && !IsSpace(s[|s| - 1]))
  }

  /** `s` with its leading whitespace removed: the longest suffix that does not
      start with a space, everything before it being whitespace. */
  function TrimStart(s: string): (r: string)
    ensures |r| <= |s| && r == s[|s| - |r|..]
    ensures AllSpace(s[..|s| - |r|])
    ensures r == [] || !IsSpace(r[0])
  {
    if s == [] || !IsSpace(s[0]) then s else TrimStart(s[1..])
  }

  /** `s` with its trailing whitespace removed. */
  function TrimEnd(s: string): (r: string)
    ensures |r| <= |s| && r == s[..|r|]
    ensures AllSpace(s[|r|..])
    ensures r == [] || !IsSpace(r[|r| - 1])
  {
    if s == [] || !IsSpace(s[|s| - 1]) then s else TrimEnd(s[..|s| - 1])
  }

  /** `r` is `s` with some whitespace cut from each end. */
  ghost predicate Trimmed(r: string, s: string) {
    exists i :: 0 <= i <= |s| - |r| && s[i..i + |r|] == r
                && AllSpace(s[..i]) && AllSpace(s[i + |r|..])
  }

  /** Python's `s.strip()`: `s` without its leading and trailing
      whitespace. `StripTrims` adds that the result is a middle slice of `s`
      with only whitespace cut away. */
  function Strip(s: string): (r: string)
    ensures |r| <= |s|
    ensures Stripped(r)
  {
    TrimEnd(TrimStart(s))
  }

  /** What `strip` removes is whitespace, from the two ends only, and it
      leaves no whitespace at either end: the result is the middle of `s`. */
  lemma StripTrims(s: string)
    ensures Stripped(Strip(s)) && Trimmed(Strip(s), s)
  {
    var t := TrimStart(s);
    var r := TrimEnd(t);
    var i := |s| - |t|;
    SliceOfSlice(s, i, |r|);
    assert s[i..i + |r|] == r;
    assert AllSpace(s[..i]) && AllSpace(s[i + |r|..]);
  }

  /** Slicing a suffix again is slicing the original. */
  lemma SliceOfSlice<T>(s: seq<T>, i: nat, n: nat)
    requires i + n <= |s|
    ensures s[i..][..n] == s[i..i + n]
    ensures s[i..][n..] == s[i + n..]
  {
  }

  /** Stripping removes nothing from a string without outer whitespace. */
  lemma StripStripped(s: string)
    requires Stripped(s)
    ensures Strip(s) == s
  {
  }

  /** Stripping twice is stripping once. */
  lemma StripIdempotent(s: string)
    ensures Strip(Strip(s)) == Strip(s)
  {
    StripTrims(s);
    StripStripped(Strip(s));
  }

  /** A line strips to nothing exactly when it is all whitespace: the lines
      the driver drops as blank. */
  lemma {:induction false} StripEmptyIff(s: string)
    ensures Strip(s) == [] <==> AllSpace(s)
  {
    if s != [] && IsSpace(s[0]) {
      StripEmptyIff(s[1..]);
      assert TrimStart(s) == TrimStart(s[1..]);
      if AllSpace(s[1..]) {
        assert forall k :: 0 <= k < |s| ==> IsSpace(s[k]) by {
          forall k | 0 <= k < |s| ensures IsSpace(s[k]) {
            if k > 0 { assert s[k] == s[1..][k - 1]; }
          }
        }
      }
    }
  }

  /** Concatenation regroups freely. */
  lemma ConcatAssoc<T>(a: seq<T>, b: seq<T>, c: seq<T>)
    ensures a + b + c == a + (b + c)
  {
  }

  /** Dropping a prefix's length from `p + x` leaves `x`. */
  lemma DropPrefix(p: string, x: string)
    ensures (p + x)[|p|..] == x
  {
  }

  /** `p` occurs in `s` starting at index `i`. */
  predicate OccursAt(p: string, s: string, i: int) {
    0 <= i && i + |p| <= |s| && s[i..i + |p|] == p
  }

  /** Whether `p` occurs in `s` at some index at or after `from`. */
  function ContainsFrom(s: string, p: string, from: nat): (r: bool)
    decreases |s| - from
    ensures r <==> exists i :: from <= i && OccursAt(p, s, i)
  {
    if from + |p| > |s| then false
    else OccursAt(p, s, from) || ContainsFrom(s, p, from + 1)
  }

  /** Python's `p in s` on strings. */
  function Contains(s: string, p: string): (r: bool)
    ensures r <==> exists i :: OccursAt(p, s, i)
  {
    ContainsFrom(s, p, 0)
  }

  /** Python truthiness of a string that may be `None`: present and not
      empty. */
  predicate Truthy(v: Option<string>) {
    v.Some? && v.value != ""
  }

  /** Python's `s.startswith(p)`. */
  predicate StartsWith(s: string, p: string) {
    p <= s
  }
}

=== FILE: wrappers.dfy ===
/** The optional value used wherever the scraper may find nothing: a missing
    HTML element, a missing attribute, an unset configuration variable. */
module Wrappers {

  datatype Option<+T> = None | Some(value: T)
}
